=== FILE: README.md ===
# files_manager: a Dafny model of the request handlers and the thumbnail worker

This project models the core of a small file-manager web service.

- Users register with an email and a password. The password is kept only as its SHA-1 digest.
- A user logs in with a Basic credential and receives a session token that lives for 24 hours.
- With that token the user uploads folders, files and images. Each file or image is written as a
  blob under a storage root.
- An image upload queues a job. A worker turns that job into three thumbnails of widths 500, 250
  and 100, stored next to the original as `<path>_<width>`.
- Anyone may read the content of a public file. A private file is served only to its owner.
  Everyone else gets "Not found".

The service has five stores: the users collection, the session keys, the files collection, the blob
directory and the job queue. The model holds them as one `State` value:

- `Store.State.users` is a sequence in insertion order, so a `findOne` is the first match
  (`Store.First`).
- The session keys, the files and the blobs are maps.
- The queue is a sequence.

Each handler is modelled twice:

- As a pure transition `(Reply, State)` of the stores. These are `UsersController.Register`,
  `AuthController.Connect`, `AuthController.Disconnect`, `FilesController.Upload`,
  `FilesController.GetFile` and `Worker.Process`.
- As a method on the class `Store.Backend`, whose fields are the five stores and which the
  method changes in place. These are `PostNew`, `GetConnect`, `GetDisconnect`, `PostUpload` and
  `RunJob`.

Each method is proved to produce exactly the reply and the new stores of its transition. Each
method also keeps `Store.Valid`, the invariant every handler maintains:

- Emails and user ids are unique, and no user id is empty.
- Every session has the 24-hour lifetime and names a registered user.
- Every node has a registered owner.
- A node has a blob exactly when it is not a folder, and that blob exists.
- Every parent is the root or an existing folder.
- Every queued job names an existing image owned by the job's user.

The worker method hands the three widths to `Worker.WriteVariants`, which runs them in a loop. Its invariants tie the blobs written so far to
`Worker.Variants`. They also tie the first failure so far to `Worker.FirstFailure`.

The third-party calls are uninterpreted functions, collected in `Platform.Env`:

- base64 and UTF-8 decoding;
- the `sha1` package;
- the `ObjectId` constructor;
- `mime-types`;
- `image-thumbnail`.

`Platform.Env` also holds the `FOLDER_PATH` setting. The inserted ids and the generated uuids are
parameters. Where a property needs them fresh, that is a precondition.

Modelling decisions that follow the code:

- **Missing X-Token on upload.** An upload without an `X-Token` header looks up the key
  `auth_undefined`. This is `FilesController.UploadIdentity`. A content read without a token looks
  nothing up (`FilesController.Requester`).
- **Credential without a colon.** The password is then undefined. The `sha1` package rejects an
  undefined argument, and the handler's catch answers 500 "Server error" (`AuthController.Connect`).
- **Invalid parent id.** An upload whose `parentId` the `ObjectId` constructor rejects gets no
  response (`Http.NoReply`), because that rejection is not caught.
- **Parents of other owners.** The parent lookup is not restricted to the caller's files.
- **Worker and node type.** The worker checks only ownership, never the node's type. It makes
  thumbnails for any node its user owns, whatever its type (`Worker.TypeNotChecked`).
- **Thumbnail failures.** The widths are made in parallel under `Promise.all`. Every width is
  attempted, and a failing width does not stop the others from being written. Which failure the
  job reports is the model's choice (see "## Left out").

## Model

| member | source | states |
|---|---|---|
| Store.First | controllers/UsersController.js:18-20 | `findOne` over insertion order: the index returned matches and no earlier document does; None exactly when no document matches |
| Store.EmptyValid | utils/db.js:7-25 | the empty stores satisfy the invariant that every handler keeps, so the invariant holds from the start |
| Store.Backend.constructor | utils/db.js:7-25 | the stores start empty and satisfy the invariant for every environment |
| Store.SessionIdsNonEmpty | controllers/AuthController.js:50-51 | in a valid state every mapped key holds a non-empty user id, so the handlers' truthiness test on the fetched id agrees with the model's test that the key is mapped |
| Store.VariantPath | controllers/FilesController.js:113-115 | a thumbnail path extends the original path, so it is never the original itself |
| UsersController.FindByEmail | controllers/UsersController.js:18-20 | the index returned is the first user with that email; None exactly when no user has it |
| UsersController.Register | controllers/UsersController.js:10-37 | "Missing email", "Missing password" and "Already exist" each hold exactly when their condition holds, checked in that order; a user is created exactly when both fields are present and no user has that email; a refusal changes nothing; success appends exactly one user with the digest of the password, never the password, and answers only id and email |
| UsersController.RegisterKeepsEmailsUnique | controllers/UsersController.js:18-30 | one registration keeps emails unique |
| UsersController.RegisterPreservesValid | controllers/UsersController.js:25-30 | with a fresh id, registration keeps the stores' invariant |
| UsersController.RegistrationsKeepEmailsUnique | controllers/UsersController.js:18-30 | across any series of registrations, no two users share an email |
| UsersController.RegisterTwiceRefused | controllers/UsersController.js:18-22 | registering an accepted email again gives "Already exist" and changes nothing |
| UsersController.Insert | controllers/UsersController.js:25-30 | the insert on its own appends one user with the given email; after a lookup that admits the request (`UsersController.Admits`: both fields present, email unused) it gives the stores of the whole registration |
| UsersController.InterleavedRegistrationsDuplicate | controllers/UsersController.js:18-30 | two registrations of one email whose lookups both run before either insert leave two users with that email |
| UsersController.PostNew | controllers/UsersController.js:10-37 | the handler on the live stores gives exactly the reply and the stores of the registration transition, and keeps the invariant |
| AuthController.SplitOn | controllers/AuthController.js:22 | `split` with one separator gives at least one field, and no field contains the separator |
| AuthController.SplitJoin | controllers/AuthController.js:22 | joining the fields of a split with the separator gives the text back |
| AuthController.SplitAfterField | controllers/AuthController.js:20 | a separator-free field followed by the separator splits off as the first field |
| AuthController.SplitCount | controllers/AuthController.js:22 | text that holds the separator splits into at least two fields |
| AuthController.HeaderText | controllers/AuthController.js:14 | the header text is empty exactly when the header is absent or empty, and is the header otherwise |
| AuthController.BasicPayload | controllers/AuthController.js:20 | the second space-separated field of a "Basic " header is the text after "Basic " up to the next space or the end |
| AuthController.ParseCredential | controllers/AuthController.js:22 | the email is the text before the first colon; without a colon the password is undefined; otherwise the password is the text up to the next colon or the end, and the rest is dropped |
| AuthController.CredentialOf | controllers/AuthController.js:14-22 | a credential is decoded exactly when the header text starts with "Basic ", and its email holds no colon |
| AuthController.CredentialMatch | controllers/AuthController.js:25-27 | the index returned is of a user with that email and that digest; None exactly when no user has both |
| AuthController.Connect | controllers/AuthController.js:12-40 | only the session keys can change; a header that is not Basic gives 401; 500 exactly when the credential has no colon; a token is issued exactly when some user has that email and the digest of that password, and then the new token maps to that user with a lifetime of 86400 s; any other outcome changes nothing |
| AuthController.Disconnect | controllers/AuthController.js:46-55 | 204 exactly when the header is present and its token is mapped; then exactly that mapping is removed; a 401 changes nothing |
| AuthController.DisconnectRemovesOnlyThatToken | controllers/AuthController.js:50-54 | logout removes the given token and leaves every other session as it was |
| AuthController.DisconnectTwice | controllers/AuthController.js:47-51 | a second logout with the same token gives 401 |
| AuthController.ConnectThenDisconnect | controllers/AuthController.js:31-34 | revoking a token just issued under a fresh name restores the stores exactly |
| AuthController.ConnectIssuesFreshSession | controllers/AuthController.js:31-32 | a login adds exactly the new token, with a 86400 s lifetime and a registered user, and keeps every earlier session |
| AuthController.ConnectPreservesValid | controllers/AuthController.js:25-32 | a login keeps the stores' invariant |
| AuthController.DisconnectPreservesValid | controllers/AuthController.js:50-54 | a logout keeps the stores' invariant |
| AuthController.GetConnect | controllers/AuthController.js:12-40 | the handler on the live stores gives exactly the reply and the stores of the login transition, and keeps the invariant |
| AuthController.GetDisconnect | controllers/AuthController.js:46-55 | the handler on the live stores gives exactly the reply and the stores of the logout transition, and keeps the invariant |
| FilesController.ParseKind | controllers/FilesController.js:27 | each of the three type names, and only it, is recognised as its kind |
| FilesController.UploadIdentity | controllers/FilesController.js:18-20 | the token, or the text "undefined" when the header is missing, is looked up; an identity is found exactly when that key is mapped, and it is the user of some session |
| FilesController.UploadCheck | controllers/FilesController.js:26-43 | the three field checks (`FilesController.FieldsValid`) run in order and the first failure wins: "Missing name", then "Missing type", then "Missing data" for a non-folder; then, for a parent given, no reply for an invalid id, "Parent not found" and "Parent is not a folder"; the upload passes exactly when the fields are valid and the parent is the root or an existing folder of any owner |
| Platform.TmpFolder | controllers/FilesController.js:11 | the storage root is never empty: it is `FOLDER_PATH` when that is set and not empty, and "/tmp/files_manager" otherwise |
| FilesController.BlobPath | controllers/FilesController.js:56-57 | a blob path is the storage root, a "/", then the uuid |
| FilesController.NewNode | controllers/FilesController.js:46-60 | the document has the caller as owner and the name, type and parent as given; its visibility is the one given, false by default; it has a blob path, under the uuid, exactly when it is not a folder |
| FilesController.Upload | controllers/FilesController.js:17-80 | an unknown token gives 401 and any refusal changes nothing; with a known token a refused upload answers exactly the first failing check's reply; a node is created exactly when the token is known and the checks pass; the node has the caller as owner and the name, type, visibility (default false) and parent as given; it has a blob path exactly when it is not a folder, and that blob holds the decoded data; exactly one job for the new id and the caller is queued exactly for an image; users and sessions are unchanged |
| FilesController.UploadAddsOneNode | controllers/FilesController.js:63-65 | with a fresh id, an upload adds exactly one node and keeps all others |
| FilesController.ParentOfAnotherOwnerAccepted | controllers/FilesController.js:35-43 | a folder owned by another user is accepted as parent |
| FilesController.CreatedNodeHasFolderParent | controllers/FilesController.js:35-43 | every created node hangs under the root or under an existing folder |
| FilesController.ParentOkGrows | controllers/FilesController.js:63-65 | inserting a new node keeps every valid parent reference valid |
| FilesController.UploadPreservesValid | controllers/FilesController.js:17-80 | with a fresh id, an upload keeps the stores' invariant |
| FilesController.UploadKeepsExistingBlobs | controllers/FilesController.js:55-59 | with a fresh blob name, an upload leaves every existing blob as it was |
| FilesController.PostUpload | controllers/FilesController.js:17-80 | the handler on the live stores writes the blob, inserts, then enqueues, giving exactly the reply and the stores of the upload transition, and keeps the invariant |
| FilesController.Requester | controllers/FilesController.js:86-87 | without a token, or with an empty one, no identity is looked up; an identity is found exactly when the token is mapped, and then it is the one an upload with that token would use |
| FilesController.Lookup | controllers/FilesController.js:91-98 | a node is found exactly when the id converts to an ObjectId that names a node, and it is that node |
| FilesController.CanRead | controllers/FilesController.js:100-105 | a caller without identity may read only a public node; a private node may be read exactly by its owner |
| FilesController.ContentPath | controllers/FilesController.js:111-115 | the original path is read exactly when the size is not 100, 250 or 500 (`FilesController.IsThumbnailSize`); otherwise the variant path of that size |
| FilesController.ContentType | controllers/FilesController.js:125 | the content type is never empty: the name's lookup when it gives one, else "application/octet-stream" |
| FilesController.GetFile | controllers/FilesController.js:83-129 | the answer is 404, the folder 400 or content; the 400 comes exactly when the node exists, the caller may read it and it is a folder; content comes exactly when the caller may read the node, it is not a folder and the chosen path exists; the body is the blob at the variant path for sizes 100, 250 and 500 and the original otherwise; the type is the name's lookup, else "application/octet-stream" |
| FilesController.PrivateContentOnlyForOwner | controllers/FilesController.js:100-105 | a private node is served only when the token resolves to its owner, and anyone else gets 404 |
| FilesController.PublicContentWithoutToken | controllers/FilesController.js:100-128 | a public file whose path exists is served with no token at all |
| FilesController.AccessCheckedBeforeFolder | controllers/FilesController.js:100-109 | a folder the caller may not read is reported as 404, not as a folder |
| FilesController.ContentReadStatuses | controllers/FilesController.js:83-129 | a content read answers only 200, 400 or 404, never 401 or 403 |
| Worker.VariantsSpareOriginal | worker.js:29 | no width's write lands on the original's path |
| Worker.Original | worker.js:23-28 | the original is read exactly when the node has a path and a blob is there, and it is that blob |
| Worker.Thumb | worker.js:28 | without an original no thumbnail is made; otherwise it is the thumbnail of the original at that width |
| Worker.VariantsWritten | worker.js:25-31 | the writes of a run (`Worker.Variants`) are at the variant path of every width whose thumbnail succeeds, and nowhere else |
| Worker.VariantPathsDistinct | worker.js:25-29 | the three variant paths are pairwise distinct |
| Worker.VariantsHoldThumbnails | worker.js:26-30 | each width whose thumbnail succeeds leaves that thumbnail at its variant path, whatever the other widths do |
| Worker.OwnedFile | worker.js:17-21 | the lookup fails with an invalid-id error exactly when either id does not convert; it finds a node exactly when a node has that id and that owner, and it is that node; otherwise "File not found" |
| Worker.FirstFailure | worker.js:26-31 | a reported failing width is one of the widths and its thumbnail failed; no failure exactly when every width's thumbnail succeeds |
| Worker.Process | worker.js:10-34 | only blobs change; "Missing fileId" exactly without a file id, then "Missing userId" exactly without a user id; the lookup fails exactly when no file has both that id and that owner, the job then fails with the lookup's error ("File not found" or the invalid-id error), and nothing is written; otherwise every successful width is written at its variant path, and the job completes exactly when every width succeeds |
| Worker.VariantsOfAllWidths | worker.js:25-31 | when every thumbnail succeeds, the writes are the three variants at widths 500, 250 and 100 |
| Worker.CompletedWritesThreeVariants | worker.js:17-31 | a completed job found its owned node with its original blob, every width succeeded, and exactly three blobs were written at `_500`, `_250` and `_100`, each the thumbnail of the original at that width |
| Worker.UnionUpdate | worker.js:29 | writing one more variant after the others is the same as adding it to the writes so far |
| Worker.Message | worker.js:13-21 | the handler throws its own message exactly for a missing file id, a missing user id and a file not found |
| Worker.MismatchWritesNothing | worker.js:17-21 | a job whose file does not exist, or is not owned by the job's user, fails with the message "File not found" and writes nothing |
| Worker.MissingFieldMessages | worker.js:11-14 | a job without a file id fails with "Missing fileId"; one with a file id but no user id fails with "Missing userId"; neither writes anything |
| Worker.TypeNotChecked | worker.js:17-23 | a job naming a plain file that its user owns completes like one naming an image |
| Worker.ProcessIdempotent | worker.js:23-31 | running the same job a second time gives the same outcome and leaves the same stores |
| Worker.ProcessPreservesValid | worker.js:10-34 | the worker keeps the stores' invariant: it only adds blobs |
| Worker.RunJob | worker.js:10-34 | the handler on the live stores, writing the widths one after another, gives exactly the outcome and the stores of the job transition, and keeps the invariant |
| Worker.WriteVariants | worker.js:24-31 | the loop over the widths writes exactly the variants of every width that succeeds and changes nothing else, and reports the first failing width |
| Scenarios.ThumbnailNotReadyAfterUpload | controllers/FilesController.js:68-70 | right after an image upload, asking for a thumbnail size gives 404, while a read without a size serves the uploaded bytes, decoded, with the name's content type |
| Scenarios.UploadedImage | controllers/FilesController.js:46-70 | an accepted image upload leaves its node, its blob holding the decoded data and, last in the queue, its job |
| Scenarios.UploadedJobCompletes | worker.js:17-31 | the job of an uploaded image completes when every thumbnail succeeds, and each variant path then holds the thumbnail at its width |
| Scenarios.ThumbnailServedAfterJob | controllers/FilesController.js:111-128 | after an image upload and its job, a read at a thumbnail size serves the thumbnail of the uploaded bytes at that width, with the name's content type |
| Scenarios.LogoutHidesPrivateFiles | controllers/FilesController.js:100-105 | after logout, the same token no longer opens the user's private files |

## Left out

- Network, HTTP framing, Express routing (`routes/index.js`), the server entry (`main.js`) and the authentication middleware (`middlewares/authenticate.js`): these are transport and wiring, not handler logic.
- The database and queue clients (`utils/db.js`, `utils/bullQueue.js`, the Redis client): the stores are in-memory values, and each call is one atomic update of them.
- Token expiry over time: a session records its 24-hour lifetime, but no clock runs, so a session never lapses. The model has no time.
- Queue delivery, retries and the `failed` event's logging: the worker is modelled as one run of the handler on one job, which the caller chooses.
- Console logging in the login handler and the worker: it has no effect on the stores or replies.
- Creating the storage directory (`fs.mkdir`), and I/O errors from writing or reading a blob: file-system failures are not modelled. An upload whose write fails rejects with no response in the source.
- Worker.Process: the three widths run concurrently in the source; the model runs them one after another, which gives the same writes because their paths are distinct (`Worker.VariantPathsDistinct`). The interleaving of a crash part-way through is not modelled.
- Worker.Process: when several widths fail, `Promise.all` rejects with whichever failure happens first in time. The model reports the first failing width in list order.
- Concurrent requests: each handler is modelled as one atomic step on the stores. In the source, registration is a lookup followed by a separate insert, with no unique index on emails, so two registrations of one email running at the same time can both succeed (`UsersController.InterleavedRegistrationsDuplicate`). UsersController.RegistrationsKeepEmailsUnique holds only for registrations handled one after another.
- Identity of users: a user id is the `insertedId` the database assigns, never empty. The model takes the new id as a parameter and UsersController.PostNew requires it to be non-empty and fresh. Under that, a mapped session key always holds a truthy id (`Store.SessionIdsNonEmpty`), which is why the logout, upload and content-read handlers test only that the key is mapped.
- UsersController.Register: the body fields are taken to be optional strings. The source passes whatever JSON the body holds into `findOne({ email })`, so a truthy non-string email such as `{"$ne": ""}` acts as a query operator: it answers "Already exist" for any non-empty collection, or inserts a user whose email is an object. That case is not modelled.
- Worker.Message: the error text of a failed `ObjectId` conversion or thumbnail comes from those libraries, so it is not modelled.
- FilesController.GetFile: the `size` query is taken as already converted. `Number` conversion of the raw text is not modelled.
- FilesController.BlobPath: `path.join` is modelled as concatenation with "/", without its normalisation of repeated or trailing separators.
- FilesController.UploadRequest: a `parentId` that is neither absent, nor the number 0, nor a string is not modelled.
- FilesController.UploadRequest: non-string `name`, `type` or `data` values are not modelled; the body fields are optional strings and an optional boolean.
- FilesController.UploadRequest: `isPublic` is taken to be a boolean. The source stores whatever value the body gives and the content read tests it by JavaScript truthiness, so a body with `isPublic: "false"` creates a public file. That case is not modelled.
- Identity of ids: `ObjectId(...).toString()` is taken to give back the id as stored, so an owner is compared as a string.
- `Platform.Env.sha1` is applied only to a defined password. The undefined case is the 500 reply above.
- Listing, metadata and visibility handlers (`getShow`, `getIndex`, `putPublish`, `putUnpublish`) and `getMe`: they are not part of this model.

## Findings

| source | as written | input that shows it | evidently intended | confidence | as-written member | corrected member |
|---|---|---|---|---|---|---|
| controllers/UsersController.js:18-30 | the email lookup and the insert are separate database calls, and no unique index backs them | two registrations of the same new email whose lookups both run before either insert | at most one user per email, as the "Already exist" check promises | medium, not executed | UsersController.InterleavedRegistrationsDuplicate | UsersController.RegistrationsKeepEmailsUnique |

=== FILE: auth.dfy ===
/** GET /connect and GET /disconnect: session tokens (controllers/AuthController.js). */
module AuthController {
  import opened Common
  import opened Platform
  import opened Store
  import opened Http

  /** String.prototype.split with a one-character separator: the fields between separators,
      empty fields included, so there is always at least one. */
  function SplitOn(s: string, sep: char): (fields: seq<string>)
    ensures |fields| >= 1
    ensures forall i :: 0 <= i < |fields| ==> sep !in fields[i]
  {
    if s == [] then [""]
    else
      var rest := SplitOn(s[1..], sep);
      if s[0] == sep then [""] + rest else [[s[0]] + rest[0]] + rest[1..]
  }

  /** Array.prototype.join with a one-character separator. */
  function Join(fields: seq<string>, sep: char): string
    requires |fields| >= 1
  {
    if |fields| == 1 then fields[0] else fields[0] + [sep] + Join(fields[1..], sep)
  }

  /** Joining the fields of a split gives the text back. */
  lemma {:induction false} SplitJoin(s: string, sep: char)
    ensures Join(SplitOn(s, sep), sep) == s
  {
    if s != [] {
      var rest := SplitOn(s[1..], sep);
      SplitJoin(s[1..], sep);
      var fields := SplitOn(s, sep);
      if s[0] == sep {
        assert fields[1..] == rest;
      } else if |rest| > 1 {
        assert fields[1..] == rest[1..];
      }
    }
  }

  /** A field followed by a separator splits off as the first field. */
  lemma {:induction false} SplitAfterField(p: string, rest: string, sep: char)
    requires sep !in p
    ensures SplitOn(p + [sep] + rest, sep) == [p] + SplitOn(rest, sep)
  {
    var s := p + [sep] + rest;
    if p == [] {
      assert s[1..] == rest;
    } else {
      assert s[1..] == p[1..] + [sep] + rest;
      SplitAfterField(p[1..], rest, sep);
      assert [p[0]] + p[1..] == p;
    }
  }

  /** Text holding a separator splits into at least two fields. */
  lemma SplitCount(s: string, sep: char)
    requires sep in s
    ensures |SplitOn(s, sep)| >= 2
  {
    SplitJoin(s, sep);
  }

  /** authHeader.split(' ')[1] of a header that starts with "Basic ": the text after
      "Basic " up to the next space. */
  function BasicPayload(h: string): (r: string)
    requires StartsWith(h, "Basic ")
    ensures ' ' !in r
    ensures StartsWith(h[6..], r)
    ensures |r| == |h| - 6 || h[6 + |r|] == ' '
  {
    assert h[5] == h[..6][5];
    SplitCount(h, ' ');
    var fields := SplitOn(h, ' ');
    assert h == "Basic" + [' '] + h[6..];
    SplitAfterField("Basic", h[6..], ' ');
    var tail := SplitOn(h[6..], ' ');
    SplitJoin(h[6..], ' ');
    assert fields[1] == tail[0];
    fields[1]
  }

  /** The decoded credential split on ':'; the password is undefined when there is no colon. */
  datatype Credential = Credential(email: string, password: Option<string>)

  /** const [email, password] = credential.split(':'): the email is the text before the first
      colon, the password the text between it and the next colon, and the rest is dropped. */
  function ParseCredential(text: string): (c: Credential)
    ensures ':' !in c.email
    ensures ':' !in text ==> c == Credential(text, None)
    ensures ':' in text ==>
      && c.password.Some?
      && ':' !in c.password.value
      && StartsWith(text, c.email + ":" + c.password.value)
      && var n := |c.email| + 1 + |c.password.value|; n == |text| || text[n] == ':'
  {
    var fields := SplitOn(text, ':');
    SplitJoin(text, ':');
    if |fields| > 1 then
      assert text == fields[0] + ":" + Join(fields[1..], ':');
      assert |fields| > 2 ==> Join(fields[1..], ':') == fields[1] + ":" + Join(fields[2..], ':');
      Credential(fields[0], Some(fields[1]))
    else
      Credential(fields[0], None)
  }

  /** req.header('Authorization') || '' */
  function HeaderText(header: Option<string>): (h: string)
    ensures h == "" <==> !Truthy(header)
    ensures h != "" ==> h == header.value
  {
    if Truthy(header) then header.value else ""
  }

  /** The credential a Basic header carries, or None when the header is not Basic. */
  function CredentialOf(env: Env, header: Option<string>): (c: Option<Credential>)
    ensures c.Some? <==> StartsWith(HeaderText(header), "Basic ")
    ensures c.Some? ==> ':' !in c.value.email
  {
    var h := HeaderText(header);
    if StartsWith(h, "Basic ") then
      Some(ParseCredential(env.utf8Decode(env.base64Decode(BasicPayload(h)))))
    else None
  }

  /** findOne({ email, password: digest }). */
  function CredentialMatch(users: seq<User>, email: string, digest: string): (r: Option<nat>)
    ensures r.Some? ==> r.value < |users| && users[r.value].email == email && users[r.value].digest == digest
    ensures r.None? <==> forall j :: 0 <= j < |users| ==> !(users[j].email == email && users[j].digest == digest)
  {
    First(users, (u: User) => u.email == email && u.digest == digest)
  }

  /** The login handler as a transition of the stores. A credential without a colon leaves
      the password undefined, which the sha1 package rejects: the handler's catch answers 500. */
  function Connect(env: Env, s: State, header: Option<string>, uuid: Token): (res: (Reply, State))
    ensures res.1 == s.(tokens := res.1.tokens)
    ensures res.0 == Unauthorized || res.0 == Fail(500, "Server error") || res.0 == TokenIssued(uuid)
    ensures !res.0.TokenIssued? ==> res.1 == s
    ensures CredentialOf(env, header).None? ==> res.0 == Unauthorized
    ensures res.0 == Fail(500, "Server error") <==>
      CredentialOf(env, header).Some? && CredentialOf(env, header).value.password.None?
    ensures res.0.TokenIssued? <==>
      && CredentialOf(env, header).Some?
      && var c := CredentialOf(env, header).value;
      && c.password.Some?
      && exists i :: 0 <= i < |s.users| && s.users[i].email == c.email && s.users[i].digest == env.sha1(c.password.value)
    ensures res.0.TokenIssued? ==>
      exists i :: 0 <= i < |s.users|
        && s.users[i].email == CredentialOf(env, header).value.email
        && s.users[i].digest == env.sha1(CredentialOf(env, header).value.password.value)
        && res.1.tokens == s.tokens[uuid := Session(s.users[i].id, TokenTtl)]
  {
    match CredentialOf(env, header)
    case None => (Unauthorized, s)
    case Some(c) =>
      match c.password
      case None => (Fail(500, "Server error"), s)
      case Some(password) =>
        match CredentialMatch(s.users, c.email, env.sha1(password))
        case None => (Unauthorized, s)
        case Some(i) => (TokenIssued(uuid), s.(tokens := s.tokens[uuid := Session(s.users[i].id, TokenTtl)]))
  }

  /** The logout handler as a transition of the stores. */
  function Disconnect(s: State, header: Option<string>): (res: (Reply, State))
    ensures res.0 == Disconnected || res.0 == Unauthorized
    ensures res.0 == Disconnected <==> Truthy(header) && header.value in s.tokens
    ensures res.0 == Unauthorized ==> res.1 == s
    ensures res.0 == Disconnected ==> res.1 == s.(tokens := s.tokens - {header.value})
  {
    if !Truthy(header) then (Unauthorized, s)
    else if header.value !in s.tokens then (Unauthorized, s)
    else (Disconnected, s.(tokens := s.tokens - {header.value}))
  }

  /** Logout removes exactly the given token; every other token keeps its session. */
  lemma DisconnectRemovesOnlyThatToken(s: State, header: Option<string>, other: Token)
    requires Disconnect(s, header).0 == Disconnected
    requires other != header.value
    ensures header.value !in Disconnect(s, header).1.tokens
    ensures other in Disconnect(s, header).1.tokens <==> other in s.tokens
    ensures other in s.tokens ==> Disconnect(s, header).1.tokens[other] == s.tokens[other]
  {
  }

  /** A second logout with the same token is refused. */
  lemma DisconnectTwice(s: State, header: Option<string>)
    ensures Disconnect(Disconnect(s, header).1, header).0 == Unauthorized
  {
  }

  /** Logout undoes a login: revoking the token just issued restores the token store. */
  lemma ConnectThenDisconnect(env: Env, s: State, header: Option<string>, uuid: Token)
    requires uuid != "" && uuid !in s.tokens
    requires Connect(env, s, header, uuid).0.TokenIssued?
    ensures Disconnect(Connect(env, s, header, uuid).1, Some(uuid)) == (Disconnected, s)
  {
    var s1 := Connect(env, s, header, uuid).1;
    assert uuid in s1.tokens;
    assert s1.tokens - {uuid} == s.tokens;
  }

  /** A fresh login maps the new token to a user with that email and password digest, for 24 h. */
  lemma ConnectIssuesFreshSession(env: Env, s: State, header: Option<string>, uuid: Token)
    requires uuid !in s.tokens
    requires Connect(env, s, header, uuid).0.TokenIssued?
    ensures var t := Connect(env, s, header, uuid).1.tokens;
      && t.Keys == s.tokens.Keys + {uuid}
      && t[uuid].ttl == 86400
      && IsUser(s.users, t[uuid].userId)
      && forall k :: k in s.tokens ==> t[k] == s.tokens[k]
  {
  }

  lemma ConnectPreservesValid(env: Env, s: State, header: Option<string>, uuid: Token)
    requires Valid(env, s)
    ensures Valid(env, Connect(env, s, header, uuid).1)
  {
    var s' := Connect(env, s, header, uuid).1;
    forall id | id in s'.files ensures NodeOk(env, s', s'.files[id]) {
      assert NodeOk(env, s, s.files[id]);
    }
  }

  lemma DisconnectPreservesValid(env: Env, s: State, header: Option<string>)
    requires Valid(env, s)
    ensures Valid(env, Disconnect(s, header).1)
  {
    var s' := Disconnect(s, header).1;
    forall id | id in s'.files ensures NodeOk(env, s', s'.files[id]) {
      assert NodeOk(env, s, s.files[id]);
    }
  }

  /** The login handler on the live stores. */
  method GetConnect(b: Backend, env: Env, header: Option<string>, uuid: Token) returns (r: Reply)
    requires Valid(env, b.Snapshot())
    modifies b
    ensures (r, b.Snapshot()) == Connect(env, old(b.Snapshot()), header, uuid)
    ensures Valid(env, b.Snapshot())
  {
    ConnectPreservesValid(env, b.Snapshot(), header, uuid);
    var h := HeaderText(header);
    if !StartsWith(h, "Basic ") {
      return Unauthorized;
    }
    var credential := ParseCredential(env.utf8Decode(env.base64Decode(BasicPayload(h))));
    if credential.password.None? {
      return Fail(500, "Server error");
    }
    var found := CredentialMatch(b.users, credential.email, env.sha1(credential.password.value));
    if found.None? {
      return Unauthorized;
    }
    b.tokens := b.tokens[uuid := Session(b.users[found.value].id, TokenTtl)];
    r := TokenIssued(uuid);
  }

  /** The logout handler on the live stores. */
  method GetDisconnect(b: Backend, env: Env, header: Option<string>) returns (r: Reply)
    requires Valid(env, b.Snapshot())
    modifies b
    ensures (r, b.Snapshot()) == Disconnect(old(b.Snapshot()), header)
    ensures Valid(env, b.Snapshot())
  {
    DisconnectPreservesValid(env, b.Snapshot(), header);
    if !Truthy(header) {
      return Unauthorized;
    }
    if header.value !in b.tokens {
      return Unauthorized;
    }
    b.tokens := b.tokens - {header.value};
    r := Disconnected;
  }
}

=== FILE: common.dfy ===
/** Small value types shared by every part of the model. */
module Common {

  datatype Option<+T> = None | Some(value: T) {
    function GetOr(default: T): T {
      if Some? then value else default
    }
  }

  datatype Result<+T, +E> = Ok(value: T) | Err(error: E)

  newtype byte = x: int | 0 <= x < 256

  type Bytes = seq<byte>

  /** JavaScript truthiness of an optional string field: absent and "" are falsy. */
  predicate Truthy(v: Option<string>) {
    v.Some? && v.value != ""
  }

  predicate StartsWith(s: string, prefix: string) {
    |prefix| <= |s| && s[..|prefix|] == prefix
  }

  function DigitChar(d: nat): char
    requires d < 10
  {
    "0123456789"[d]
  }

  /** The decimal text JavaScript prints for a non-negative integer. */
  function Decimal(n: nat): (r: string)
    ensures |r| >= 1
  {
    if n < 10 then [DigitChar(n)] else Decimal(n / 10) + [DigitChar(n % 10)]
  }
}

/** The process environment: configuration and the third-party calls of the handlers,
    each an uninterpreted function. */
module Platform {
  import opened Common

  datatype Env = Env(
    /** FOLDER_PATH, when set. */
    folderPathVar: Option<string>,
    /** Buffer.from(text, 'base64'): lenient, never fails. */
    base64Decode: string -> Bytes,
    /** buffer.toString('utf-8'). */
    utf8Decode: Bytes -> string,
    /** The sha1 package: hex digest of a defined string. */
    sha1: string -> string,
    /** mongodb ObjectId(text): the canonical id, or None where the constructor throws. */
    parseObjectId: string -> Option<string>,
    /** mime-types lookup(name): None where it returns false. */
    mimeLookup: string -> Option<string>,
    /** image-thumbnail on the bytes of an image at a target width: None where it rejects. */
    thumbnail: (Bytes, nat) -> Option<Bytes>)

  const DefaultFolder: string := "/tmp/files_manager"

  /** The blob root: FOLDER_PATH or the default. */
  function TmpFolder(env: Env): (f: string)
    ensures f != ""
    ensures !Truthy(env.folderPathVar) ==> f == DefaultFolder
    ensures Truthy(env.folderPathVar) ==> f == env.folderPathVar.value
  {
    if Truthy(env.folderPathVar) then env.folderPathVar.value else DefaultFolder
  }
}

=== FILE: files.dfy ===
/** POST /files and GET /files/:id/data (controllers/FilesController.js). */
module FilesController {
  import opened Common
  import opened Platform
  import opened Store
  import opened Http

  /** The body fields of an upload. An absent parentId is the number 0. */
  datatype UploadRequest = UploadRequest(
    name: Option<string>,
    kind: Option<string>,
    parentId: ParentRef,
    isPublic: Option<bool>,
    data: Option<string>)

  /** ['folder', 'file', 'image'].includes(type) */
  function ParseKind(t: Option<string>): (k: Option<Kind>)
    ensures k == Some(Folder) <==> t == Some("folder")
    ensures k == Some(File) <==> t == Some("file")
    ensures k == Some(Image) <==> t == Some("image")
  {
    if t == Some("folder") then Some(Folder)
    else if t == Some("file") then Some(File)
    else if t == Some("image") then Some(Image)
    else None
  }

  /** The user behind the key auth_<X-Token>; a missing header interpolates as "undefined". */
  function UploadIdentity(tokens: map<Token, Session>, token: Option<string>): (r: Option<Id>)
    ensures token.Some? ==> (r.Some? <==> token.value in tokens)
    ensures token.None? ==> (r.Some? <==> "undefined" in tokens)
    ensures r.Some? ==> exists k :: k in tokens && tokens[k].userId == r.value
  {
    var key := if token.Some? then token.value else "undefined";
    if key in tokens then Some(tokens[key].userId) else None
  }

  /** The user a content read is made for: no lookup at all without a token. */
  function Requester(tokens: map<Token, Session>, token: Option<string>): (r: Option<Id>)
    ensures !Truthy(token) ==> r.None?
    ensures r.Some? <==> Truthy(token) && token.value in tokens
    ensures r.Some? ==> r == UploadIdentity(tokens, token)
  {
    if Truthy(token) && token.value in tokens then Some(tokens[token.value].userId) else None
  }

  /** The three field checks of an upload pass. */
  predicate FieldsValid(req: UploadRequest) {
    && Truthy(req.name)
    && ParseKind(req.kind).Some?
    && (ParseKind(req.kind).value == Folder || Truthy(req.data))
  }

  /** The validation of an upload, after the caller is known: name, type, data, then the parent,
      which is looked up among all files, whoever owns them. A parentId that is not an ObjectId
      makes the handler throw with no response. */
  function UploadCheck(env: Env, files: map<Id, FileNode>, req: UploadRequest): (r: Result<Kind, Reply>)
    ensures r == Err(Fail(400, "Missing name")) <==> !Truthy(req.name)
    ensures r == Err(Fail(400, "Missing type")) <==> Truthy(req.name) && ParseKind(req.kind).None?
    ensures r == Err(Fail(400, "Missing data")) <==>
      Truthy(req.name) && ParseKind(req.kind).Some? && ParseKind(req.kind).value != Folder && !Truthy(req.data)
    ensures r == Err(NoReply) <==>
      FieldsValid(req) && req.parentId.Parent? && env.parseObjectId(req.parentId.raw).None?
    ensures r == Err(Fail(400, "Parent not found")) <==>
      && FieldsValid(req) && req.parentId.Parent?
      && env.parseObjectId(req.parentId.raw).Some?
      && env.parseObjectId(req.parentId.raw).value !in files
    ensures r == Err(Fail(400, "Parent is not a folder")) <==>
      && FieldsValid(req) && req.parentId.Parent?
      && env.parseObjectId(req.parentId.raw).Some?
      && env.parseObjectId(req.parentId.raw).value in files
      && files[env.parseObjectId(req.parentId.raw).value].kind != Folder
    ensures r.Ok? <==> FieldsValid(req) && ParentOk(env, files, req.parentId)
    ensures r.Ok? ==> Some(r.value) == ParseKind(req.kind)
  {
    if !Truthy(req.name) then Err(Fail(400, "Missing name"))
    else if ParseKind(req.kind).None? then Err(Fail(400, "Missing type"))
    else
      var kind := ParseKind(req.kind).value;
      if kind != Folder && !Truthy(req.data) then Err(Fail(400, "Missing data"))
      else match req.parentId
        case Root => Ok(kind)
        case Parent(raw) =>
          match env.parseObjectId(raw)
          case None => Err(NoReply)
          case Some(pid) =>
            if pid !in files then Err(Fail(400, "Parent not found"))
            else if files[pid].kind != Folder then Err(Fail(400, "Parent is not a folder"))
            else Ok(kind)
  }

  /** path.join(TMP_FOLDER, uuid) */
  function BlobPath(env: Env, uuid: string): (p: Path)
    ensures StartsWith(p, TmpFolder(env) + "/")
    ensures p[|TmpFolder(env)| + 1..] == uuid
  {
    TmpFolder(env) + "/" + uuid
  }

  /** The document an accepted upload inserts. */
  function NewNode(env: Env, owner: Id, req: UploadRequest, kind: Kind, uuid: string): (n: FileNode)
    requires Truthy(req.name)
    ensures n.owner == owner && n.name == req.name.value && n.kind == kind && n.parentId == req.parentId
    ensures req.isPublic.None? ==> !n.isPublic
    ensures req.isPublic.Some? ==> n.isPublic == req.isPublic.value
    ensures n.localPath.Some? <==> kind != Folder
    ensures n.localPath.Some? ==> n.localPath.value == BlobPath(env, uuid)
  {
    FileNode(owner, req.name.value, kind, req.isPublic.GetOr(false), req.parentId,
             if kind != Folder then Some(BlobPath(env, uuid)) else None)
  }

  /** The upload handler as a transition of the stores: every refusal changes nothing; an
      accepted upload writes the decoded data to a new blob unless it is a folder, inserts one
      node, and queues one thumbnail job for an image. */
  function Upload(env: Env, s: State, token: Option<string>, req: UploadRequest, newId: Id, uuid: string)
    : (res: (Reply, State))
    ensures UploadIdentity(s.tokens, token).None? ==> res == (Unauthorized, s)
    ensures !res.0.FileCreated? ==> res.1 == s
    ensures res.0.FileCreated? <==>
      UploadIdentity(s.tokens, token).Some? && UploadCheck(env, s.files, req).Ok?
    ensures UploadIdentity(s.tokens, token).Some? && UploadCheck(env, s.files, req).Err? ==>
      res.0 == UploadCheck(env, s.files, req).error
    ensures res.0.FileCreated? ==>
      var owner := UploadIdentity(s.tokens, token).value;
      var kind := ParseKind(req.kind).value;
      && res.1.users == s.users && res.1.tokens == s.tokens
      && newId in res.1.files
      && res.1.files == s.files[newId := res.1.files[newId]]
      && var n := res.1.files[newId];
      && n.owner == owner && n.name == req.name.value && n.kind == kind
      && n.isPublic == req.isPublic.GetOr(false) && n.parentId == req.parentId
      && (n.localPath.Some? <==> kind != Folder)
      && (n.localPath.Some? ==>
            n.localPath.value == BlobPath(env, uuid)
            && res.1.blobs == s.blobs[BlobPath(env, uuid) := env.base64Decode(req.data.value)])
      && (n.localPath.None? ==> res.1.blobs == s.blobs)
      && res.1.queue == (if kind == Image then s.queue + [Job(Some(newId), Some(owner))] else s.queue)
      && res.0 == FileCreated(newId, owner, n.name, kind, n.isPublic, n.parentId)
  {
    match UploadIdentity(s.tokens, token)
    case None => (Unauthorized, s)
    case Some(owner) =>
      match UploadCheck(env, s.files, req)
      case Err(reply) => (reply, s)
      case Ok(kind) =>
        var n := NewNode(env, owner, req, kind, uuid);
        var blobs := if kind != Folder then s.blobs[n.localPath.value := env.base64Decode(req.data.value)] else s.blobs;
        var queue := if kind == Image then s.queue + [Job(Some(newId), Some(owner))] else s.queue;
        (FileCreated(newId, owner, n.name, kind, n.isPublic, n.parentId),
         s.(blobs := blobs, files := s.files[newId := n], queue := queue))
  }

  /** With a fresh id, an accepted upload adds exactly one node and keeps the others. */
  lemma UploadAddsOneNode(env: Env, s: State, token: Option<string>, req: UploadRequest, newId: Id, uuid: string)
    requires newId !in s.files
    requires Upload(env, s, token, req, newId, uuid).0.FileCreated?
    ensures var files := Upload(env, s, token, req, newId, uuid).1.files;
      && files.Keys == s.files.Keys + {newId}
      && |files| == |s.files| + 1
      && forall id :: id in s.files ==> files[id] == s.files[id]
  {
    var files := Upload(env, s, token, req, newId, uuid).1.files;
    assert files.Keys == s.files.Keys + {newId};
  }

  /** A folder owned by someone else is accepted as the parent of an upload. */
  lemma ParentOfAnotherOwnerAccepted(env: Env, s: State, token: Option<string>, req: UploadRequest,
                                     newId: Id, uuid: string, pid: Id)
    requires UploadIdentity(s.tokens, token).Some?
    requires FieldsValid(req) && req.parentId.Parent?
    requires env.parseObjectId(req.parentId.raw) == Some(pid)
    requires pid in s.files && s.files[pid].kind == Folder
    requires s.files[pid].owner != UploadIdentity(s.tokens, token).value
    ensures Upload(env, s, token, req, newId, uuid).0.FileCreated?
  {
  }

  /** Every created node hangs under the root or under an existing folder. */
  lemma CreatedNodeHasFolderParent(env: Env, s: State, token: Option<string>, req: UploadRequest, newId: Id, uuid: string)
    requires newId !in s.files
    requires Upload(env, s, token, req, newId, uuid).0.FileCreated?
    ensures var files := Upload(env, s, token, req, newId, uuid).1.files;
      ParentOk(env, files, files[newId].parentId)
  {
    var files := Upload(env, s, token, req, newId, uuid).1.files;
    ParentOkGrows(env, s.files, newId, files[newId], req.parentId);
  }

  lemma ParentOkGrows(env: Env, files: map<Id, FileNode>, id: Id, n: FileNode, p: ParentRef)
    requires ParentOk(env, files, p)
    requires id !in files
    ensures ParentOk(env, files[id := n], p)
  {
  }

  /** With a fresh blob name, an upload leaves every existing blob as it was. */
  lemma UploadKeepsExistingBlobs(env: Env, s: State, token: Option<string>, req: UploadRequest, newId: Id, uuid: string)
    requires BlobPath(env, uuid) !in s.blobs
    ensures var blobs := Upload(env, s, token, req, newId, uuid).1.blobs;
      forall q :: q in s.blobs ==> q in blobs && blobs[q] == s.blobs[q]
  {
  }

  /** An upload keeps the stores' invariant, given a fresh id and a fresh blob name. */
  lemma UploadPreservesValid(env: Env, s: State, token: Option<string>, req: UploadRequest, newId: Id, uuid: string)
    requires Valid(env, s)
    requires newId !in s.files
    ensures Valid(env, Upload(env, s, token, req, newId, uuid).1)
  {
    var (r, s') := Upload(env, s, token, req, newId, uuid);
    if r.FileCreated? {
      var owner := UploadIdentity(s.tokens, token).value;
      var key := if token.Some? then token.value else "undefined";
      assert IsUser(s.users, s.tokens[key].userId);
      var n := s'.files[newId];
      forall id | id in s'.files ensures NodeOk(env, s', s'.files[id]) {
        if id == newId {
          ParentOkGrows(env, s.files, newId, n, n.parentId);
        } else {
          assert NodeOk(env, s, s.files[id]);
          ParentOkGrows(env, s.files, newId, n, s.files[id].parentId);
        }
      }
      forall i | 0 <= i < |s'.queue| ensures JobOk(s'.files, s'.queue[i]) {
        if i < |s.queue| {
          assert s'.queue[i] == s.queue[i];
          assert JobOk(s.files, s.queue[i]);
        }
      }
    }
  }

  /** The upload handler on the live stores: blob write, then insert, then enqueue. */
  method PostUpload(b: Backend, env: Env, token: Option<string>, req: UploadRequest, newId: Id, uuid: string)
    returns (r: Reply)
    requires Valid(env, b.Snapshot())
    requires newId !in b.files
    modifies b
    ensures (r, b.Snapshot()) == Upload(env, old(b.Snapshot()), token, req, newId, uuid)
    ensures Valid(env, b.Snapshot())
  {
    UploadPreservesValid(env, b.Snapshot(), token, req, newId, uuid);
    var owner := UploadIdentity(b.tokens, token);
    if owner.None? {
      return Unauthorized;
    }
    var check := UploadCheck(env, b.files, req);
    if check.Err? {
      return check.error;
    }
    var kind := check.value;
    var node := NewNode(env, owner.value, req, kind, uuid);
    if kind != Folder {
      b.blobs := b.blobs[node.localPath.value := env.base64Decode(req.data.value)];
    }
    b.files := b.files[newId := node];
    if kind == Image {
      b.queue := b.queue + [Job(Some(newId), Some(owner.value))];
    }
    r := FileCreated(newId, owner.value, node.name, kind, node.isPublic, node.parentId);
  }

  /** The node a content read names, if the id is an ObjectId of an existing file. */
  function Lookup(env: Env, files: map<Id, FileNode>, id: string): (r: Option<FileNode>)
    ensures r.Some? <==> env.parseObjectId(id).Some? && env.parseObjectId(id).value in files
    ensures r.Some? ==> r.value == files[env.parseObjectId(id).value]
  {
    match env.parseObjectId(id)
    case None => None
    case Some(fid) => if fid in files then Some(files[fid]) else None
  }

  /** The sizes a content read may ask for; any other size reads the original. */
  predicate IsThumbnailSize(size: Option<int>) {
    size == Some(100) || size == Some(250) || size == Some(500)
  }

  /** The blob a content read serves: the thumbnail variant for a known size, else the original. */
  function ContentPath(localPath: Path, size: Option<int>): (p: Path)
    ensures p == localPath <==> !IsThumbnailSize(size)
    ensures IsThumbnailSize(size) ==> p == VariantPath(localPath, size.value)
  {
    if IsThumbnailSize(size) then VariantPath(localPath, size.value) else localPath
  }

  /** Who may read a node's content: anyone when it is public, otherwise only its owner. */
  predicate CanRead(n: FileNode, requester: Option<Id>)
    ensures requester.None? ==> (CanRead(n, requester) <==> n.isPublic)
    ensures !n.isPublic ==> (CanRead(n, requester) <==> requester == Some(n.owner))
  {
    n.isPublic || requester == Some(n.owner)
  }

  /** mime.lookup(name) || 'application/octet-stream' */
  function ContentType(env: Env, name: string): (t: string)
    ensures t != ""
    ensures Truthy(env.mimeLookup(name)) ==> t == env.mimeLookup(name).value
    ensures !Truthy(env.mimeLookup(name)) ==> t == "application/octet-stream"
  {
    var m := env.mimeLookup(name);
    if Truthy(m) then m.value else "application/octet-stream"
  }

  /** The content-read handler, a read-only decision: a node the caller may not read is reported
      exactly as a missing one, and only a readable node is told that it is a folder. */
  function GetFile(env: Env, s: State, id: string, token: Option<string>, size: Option<int>): (r: Reply)
    ensures r == NotFound || r == Fail(400, "A folder doesn't have content") || r.Content?
    ensures r == Fail(400, "A folder doesn't have content") <==>
      && Lookup(env, s.files, id).Some?
      && CanRead(Lookup(env, s.files, id).value, Requester(s.tokens, token))
      && Lookup(env, s.files, id).value.kind == Folder
    ensures r.Content? <==>
      && Lookup(env, s.files, id).Some?
      && var n := Lookup(env, s.files, id).value;
      && CanRead(n, Requester(s.tokens, token))
      && n.kind != Folder
      && n.localPath.Some?
      && ContentPath(n.localPath.value, size) in s.blobs
    ensures r.Content? ==>
      var n := Lookup(env, s.files, id).value;
      && r.body == s.blobs[ContentPath(n.localPath.value, size)]
      && r.contentType == ContentType(env, n.name)
  {
    match Lookup(env, s.files, id)
    case None => NotFound
    case Some(n) =>
      if !n.isPublic && (Requester(s.tokens, token).None? || Requester(s.tokens, token).value != n.owner) then
        NotFound
      else if n.kind == Folder then
        Fail(400, "A folder doesn't have content")
      else match n.localPath
        case None => NotFound
        case Some(base) =>
          var path := ContentPath(base, size);
          if path !in s.blobs then NotFound
          else Content(ContentType(env, n.name), s.blobs[path])
  }

  /** A private node is served only to the user its token resolves to. */
  lemma PrivateContentOnlyForOwner(env: Env, s: State, id: string, token: Option<string>, size: Option<int>)
    requires Lookup(env, s.files, id).Some? && !Lookup(env, s.files, id).value.isPublic
    ensures GetFile(env, s, id, token, size).Content? ==>
      Requester(s.tokens, token) == Some(Lookup(env, s.files, id).value.owner)
    ensures Requester(s.tokens, token) != Some(Lookup(env, s.files, id).value.owner) ==>
      GetFile(env, s, id, token, size) == NotFound
  {
  }

  /** A public file is served without any token. */
  lemma PublicContentWithoutToken(env: Env, s: State, id: string, size: Option<int>)
    requires Lookup(env, s.files, id).Some?
    requires var n := Lookup(env, s.files, id).value;
      n.isPublic && n.kind != Folder && n.localPath.Some? && ContentPath(n.localPath.value, size) in s.blobs
    ensures GetFile(env, s, id, None, size).Content?
  {
  }

  /** Access is decided before the folder check: a private folder looks missing to others. */
  lemma AccessCheckedBeforeFolder(env: Env, s: State, id: string, token: Option<string>, size: Option<int>)
    requires Lookup(env, s.files, id).Some?
    requires var n := Lookup(env, s.files, id).value;
      n.kind == Folder && !CanRead(n, Requester(s.tokens, token))
    ensures GetFile(env, s, id, token, size) == NotFound
  {
  }

  /** A content read never answers 401 or 403. */
  lemma ContentReadStatuses(env: Env, s: State, id: string, token: Option<string>, size: Option<int>)
    ensures Status(GetFile(env, s, id, token, size)) in {200, 400, 404}
  {
  }
}

=== FILE: scenarios.dfy ===
/** Properties that follow a request through more than one handler. */
module Scenarios {
  import opened Common
  import opened Platform
  import opened Store
  import opened Http
  import AuthController
  import FilesController
  import Worker

  /** The request an image upload was made with, and what it needs to be served back. */
  predicate ImageUploaded(env: Env, s: State, token: Option<string>, req: FilesController.UploadRequest,
                          newId: Id, uuid: string)
  {
    && Truthy(token)
    && req.kind == Some("image")
    && FilesController.Upload(env, s, token, req, newId, uuid).0.FileCreated?
  }

  /** Right after an image upload its thumbnails are not there yet: asking for one is "not
      found", though the original is served. */
  lemma ThumbnailNotReadyAfterUpload(env: Env, s: State, token: Option<string>, req: FilesController.UploadRequest,
                                     newId: Id, uuid: string, size: Option<int>)
    requires ImageUploaded(env, s, token, req, newId, uuid)
    requires env.parseObjectId(newId) == Some(newId)
    requires FilesController.IsThumbnailSize(size)
    requires VariantPath(FilesController.BlobPath(env, uuid), size.value) !in s.blobs
    ensures var s1 := FilesController.Upload(env, s, token, req, newId, uuid).1;
      && FilesController.GetFile(env, s1, newId, token, size) == NotFound
      && FilesController.GetFile(env, s1, newId, token, None)
           == Content(FilesController.ContentType(env, req.name.value), env.base64Decode(req.data.value))
  {
    var s1 := FilesController.Upload(env, s, token, req, newId, uuid).1;
    var p := FilesController.BlobPath(env, uuid);
    var v := VariantPath(p, size.value);
    assert FilesController.ParseKind(req.kind) == Some(Image);
    assert v != p;
    assert v !in s1.blobs;
  }

  /** Once the queued job has run and every thumbnail succeeded, a request for a thumbnail size
      serves the thumbnail of the uploaded bytes at that width. */
  lemma ThumbnailServedAfterJob(env: Env, s: State, token: Option<string>, req: FilesController.UploadRequest,
                                newId: Id, uuid: string, size: Option<int>)
    requires ImageUploaded(env, s, token, req, newId, uuid)
    requires newId != "" && env.parseObjectId(newId) == Some(newId)
    requires var owner := FilesController.UploadIdentity(s.tokens, token).value;
      owner != "" && env.parseObjectId(owner) == Some(owner)
    requires FilesController.IsThumbnailSize(size)
    requires forall w :: w in Worker.Widths ==> env.thumbnail(env.base64Decode(req.data.value), w).Some?
    ensures var s1 := FilesController.Upload(env, s, token, req, newId, uuid).1;
      && |s1.queue| > 0
      && var (out, s2) := Worker.Process(env, s1.queue[|s1.queue| - 1], s1);
      && out == Worker.Completed
      && FilesController.GetFile(env, s2, newId, token, size)
           == Content(FilesController.ContentType(env, req.name.value),
                      env.thumbnail(env.base64Decode(req.data.value), size.value).value)
  {
    var s1 := FilesController.Upload(env, s, token, req, newId, uuid).1;
    var owner := FilesController.UploadIdentity(s.tokens, token).value;
    var p := FilesController.BlobPath(env, uuid);
    var data := env.base64Decode(req.data.value);
    UploadedImage(env, s, token, req, newId, uuid);
    var job := s1.queue[|s1.queue| - 1];
    UploadedJobCompletes(env, job, s1, newId, owner, p, data, size.value);
  }

  /** What an accepted image upload leaves behind: its node, its blob and, last in the queue,
      its job. */
  lemma UploadedImage(env: Env, s: State, token: Option<string>, req: FilesController.UploadRequest,
                      newId: Id, uuid: string)
    requires ImageUploaded(env, s, token, req, newId, uuid)
    ensures var s1 := FilesController.Upload(env, s, token, req, newId, uuid).1;
      var owner := FilesController.UploadIdentity(s.tokens, token).value;
      var p := FilesController.BlobPath(env, uuid);
      && |s1.queue| > 0 && s1.queue[|s1.queue| - 1] == Job(Some(newId), Some(owner))
      && newId in s1.files && s1.files[newId].owner == owner && s1.files[newId].kind == Image
      && s1.files[newId].name == req.name.value && s1.files[newId].localPath == Some(p)
      && p in s1.blobs && s1.blobs[p] == env.base64Decode(req.data.value)
      && FilesController.Requester(s1.tokens, token) == Some(owner)
  {
    assert FilesController.ParseKind(req.kind) == Some(Image);
  }

  /** The job of an uploaded image, once every thumbnail succeeds, completes and leaves each
      variant path holding the thumbnail at its width. */
  lemma UploadedJobCompletes(env: Env, job: Job, s1: State, newId: Id, owner: Id, p: Path, data: Bytes, w: nat)
    requires job == Job(Some(newId), Some(owner))
    requires newId != "" && env.parseObjectId(newId) == Some(newId)
    requires owner != "" && env.parseObjectId(owner) == Some(owner)
    requires newId in s1.files && s1.files[newId].owner == owner && s1.files[newId].localPath == Some(p)
    requires p in s1.blobs && s1.blobs[p] == data
    requires forall x :: x in Worker.Widths ==> env.thumbnail(data, x).Some?
    requires w == 100 || w == 250 || w == 500
    ensures var (out, s2) := Worker.Process(env, job, s1);
      && out == Worker.Completed
      && s2.files == s1.files && s2.tokens == s1.tokens
      && VariantPath(p, w) in s2.blobs && s2.blobs[VariantPath(p, w)] == env.thumbnail(data, w).value
  {
    assert Worker.OwnedFile(env, s1.files, job) == Ok(s1.files[newId]);
    var original := Worker.Original(s1.blobs, Some(p));
    assert original == Some(data);
    forall x | x in Worker.Widths ensures Worker.Thumb(env, original, x).Some? {
    }
    assert Worker.FirstFailure(env, original, Worker.Widths).None?;
    Worker.CompletedWritesThreeVariants(env, job, s1);
    Worker.VariantPathsDistinct(p);
  }

  /** After logout the same token no longer opens the user's private files. */
  lemma LogoutHidesPrivateFiles(env: Env, s: State, token: Option<string>, id: string, size: Option<int>)
    requires AuthController.Disconnect(s, token).0 == Disconnected
    requires FilesController.Lookup(env, s.files, id).Some?
    requires !FilesController.Lookup(env, s.files, id).value.isPublic
    ensures FilesController.GetFile(env, AuthController.Disconnect(s, token).1, id, token, size) == NotFound
  {
  }
}

=== FILE: store.dfy ===
/** The stores the handlers share: the users and files collections, the session keys,
    the blob directory and the thumbnail queue, as in-memory values. */
module Store {
  import opened Common
  import opened Platform

  /** An ObjectId in its string form. */
  type Id = string
  type Token = string
  type Path = string

  /** Lifetime of a session key, in seconds (24 h). */
  const TokenTtl: nat := 60 * 60 * 24

  /** A users document: the password is kept only as its SHA-1 digest. */
  datatype User = User(id: Id, email: string, digest: string)

  /** The value behind the key auth_<token>, with the expiry it was set with. */
  datatype Session = Session(userId: Id, ttl: nat)

  datatype Kind = Folder | File | Image

  /** The parentId of an upload as given: the number 0 (also the default) or a string. */
  datatype ParentRef = Root | Parent(raw: string)

  /** A files document. */
  datatype FileNode = FileNode(
    owner: Id,
    name: string,
    kind: Kind,
    isPublic: bool,
    parentId: ParentRef,
    localPath: Option<Path>)

  /** The data of a thumbnail job; either field may be missing in a job from elsewhere. */
  datatype Job = Job(fileId: Option<string>, userId: Option<string>)

  datatype State = State(
    users: seq<User>,
    tokens: map<Token, Session>,
    files: map<Id, FileNode>,
    blobs: map<Path, Bytes>,
    queue: seq<Job>)

  const Empty: State := State([], map[], map[], map[], [])

  /** Where the thumbnail of the blob at p for the given width lives: p + "_" + width. */
  function VariantPath(p: Path, width: nat): (r: Path)
    ensures |r| > |p| && r[..|p|] == p
  {
    p + "_" + Decimal(width)
  }

  /** findOne over a collection kept in insertion order: the first document that matches. */
  function First(users: seq<User>, matches: User -> bool): (r: Option<nat>)
    ensures r.Some? ==> r.value < |users| && matches(users[r.value])
    ensures r.Some? ==> forall j :: 0 <= j < r.value ==> !matches(users[j])
    ensures r.None? <==> forall j :: 0 <= j < |users| ==> !matches(users[j])
  {
    if |users| == 0 then None
    else if matches(users[0]) then Some(0)
    else match First(users[1..], matches)
      case None => None
      case Some(i) => Some(i + 1)
  }

  ghost predicate IsUser(users: seq<User>, id: Id) {
    exists i :: 0 <= i < |users| && users[i].id == id
  }

  ghost predicate EmailsUnique(users: seq<User>) {
    forall i, j :: 0 <= i < j < |users| ==> users[i].email != users[j].email
  }

  ghost predicate IdsUnique(users: seq<User>) {
    forall i, j :: 0 <= i < j < |users| ==> users[i].id != users[j].id
  }

  /** The parent of a node is the root or an existing folder. */
  ghost predicate ParentOk(env: Env, files: map<Id, FileNode>, parent: ParentRef) {
    match parent
    case Root => true
    case Parent(raw) =>
      match env.parseObjectId(raw)
      case None => false
      case Some(pid) => pid in files && files[pid].kind == Folder
  }

  ghost predicate NodeOk(env: Env, s: State, n: FileNode) {
    && IsUser(s.users, n.owner)
    && (n.localPath.Some? <==> n.kind != Folder)
    && (n.localPath.Some? ==> n.localPath.value in s.blobs)
    && ParentOk(env, s.files, n.parentId)
  }

  /** A queued job names an image already in the files collection, owned by the job's user. */
  ghost predicate JobOk(files: map<Id, FileNode>, job: Job) {
    && job.fileId.Some?
    && job.fileId.value in files
    && files[job.fileId.value].kind == Image
    && job.userId == Some(files[job.fileId.value].owner)
  }

  /** What every handler keeps true of the stores. */
  ghost predicate Valid(env: Env, s: State) {
    && EmailsUnique(s.users)
    && IdsUnique(s.users)
    && (forall i :: 0 <= i < |s.users| ==> s.users[i].id != "")
    && (forall t :: t in s.tokens ==> s.tokens[t].ttl == TokenTtl && IsUser(s.users, s.tokens[t].userId))
    && (forall id :: id in s.files ==> NodeOk(env, s, s.files[id]))
    && (forall i :: 0 <= i < |s.queue| ==> JobOk(s.files, s.queue[i]))
  }

  /** The empty stores satisfy the invariant, so every run of the handlers starts from a valid state. */
  lemma EmptyValid(env: Env)
    ensures Valid(env, Empty)
  {
  }

  /** Every session names a non-empty user id, so testing that a key is mapped agrees with
      testing that the id fetched from it is truthy. */
  lemma SessionIdsNonEmpty(env: Env, s: State, t: Token)
    requires Valid(env, s)
    requires t in s.tokens
    ensures s.tokens[t].userId != ""
  {
    var i :| 0 <= i < |s.users| && s.users[i].id == s.tokens[t].userId;
  }

  /** The stores as the handlers change them in place. */
  class Backend {
    var users: seq<User>
    var tokens: map<Token, Session>
    var files: map<Id, FileNode>
    var blobs: map<Path, Bytes>
    var queue: seq<Job>

    function Snapshot(): State
      reads this
    {
      State(users, tokens, files, blobs, queue)
    }

    constructor ()
      ensures Snapshot() == Empty
      ensures forall env :: Valid(env, Snapshot())
    {
      users, tokens, files, blobs, queue := [], map[], map[], map[], [];
    }
  }
}

/** The responses the handlers send. */
module Http {
  import opened Common
  import opened Store

  datatype Reply =
    | Fail(status: nat, error: string)
      /** An unhandled rejection: no response is sent. */
    | NoReply
    | UserCreated(id: Id, email: string)
    | TokenIssued(token: Token)
    | Disconnected
    | FileCreated(id: Id, userId: Id, name: string, kind: Kind, isPublic: bool, parentId: ParentRef)
    | Content(contentType: string, body: Bytes)

  const Unauthorized: Reply := Fail(401, "Unauthorized")
  const NotFound: Reply := Fail(404, "Not found")

  function Status(r: Reply): nat {
    match r
    case Fail(status, _) => status
    case NoReply => 0
    case UserCreated(_, _) => 201
    case TokenIssued(_) => 200
    case Disconnected => 204
    case FileCreated(_, _, _, _, _, _) => 201
    case Content(_, _) => 200
  }
}

=== FILE: users.dfy ===
/** POST /users: registration (controllers/UsersController.js). */
module UsersController {
  import opened Common
  import opened Platform
  import opened Store
  import opened Http

  /** findOne({ email }) over the users collection: the first user with that email. */
  function FindByEmail(users: seq<User>, email: string): (r: Option<nat>)
    ensures r.Some? ==> r.value < |users| && users[r.value].email == email
    ensures r.Some? ==> forall j :: 0 <= j < r.value ==> users[j].email != email
    ensures r.None? <==> forall j :: 0 <= j < |users| ==> users[j].email != email
  {
    First(users, (u: User) => u.email == email)
  }

  /** The registration handler as a transition of the stores: email is checked before the
      password, then uniqueness; success appends one user holding only the digest. */
  function Register(env: Env, s: State, email: Option<string>, password: Option<string>, newId: Id)
    : (res: (Reply, State))
    ensures res.0 == Fail(400, "Missing email") <==> !Truthy(email)
    ensures res.0 == Fail(400, "Missing password") <==> Truthy(email) && !Truthy(password)
    ensures res.0 == Fail(400, "Already exist") <==>
      && Truthy(email) && Truthy(password)
      && exists i :: 0 <= i < |s.users| && s.users[i].email == email.value
    ensures res.0.Fail? || res.0.UserCreated?
    ensures res.0.UserCreated? <==>
      && Truthy(email) && Truthy(password)
      && forall i :: 0 <= i < |s.users| ==> s.users[i].email != email.value
    ensures res.0.Fail? ==> res.1 == s
    ensures res.0.UserCreated? ==>
      && Truthy(email) && Truthy(password)
      && res.0 == UserCreated(newId, email.value)
      && res.1 == s.(users := s.users + [User(newId, email.value, env.sha1(password.value))])
  {
    if !Truthy(email) then (Fail(400, "Missing email"), s)
    else if !Truthy(password) then (Fail(400, "Missing password"), s)
    else if FindByEmail(s.users, email.value).Some? then (Fail(400, "Already exist"), s)
    else
      var user := User(newId, email.value, env.sha1(password.value));
      (UserCreated(newId, email.value), s.(users := s.users + [user]))
  }

  lemma RegisterKeepsEmailsUnique(env: Env, s: State, email: Option<string>, password: Option<string>, newId: Id)
    requires EmailsUnique(s.users)
    ensures EmailsUnique(Register(env, s, email, password, newId).1.users)
  {
  }

  /** Appending a user keeps every earlier identity registered. */
  lemma AppendKeepsUsers(users: seq<User>, u: User, id: Id)
    requires IsUser(users, id)
    ensures IsUser(users + [u], id)
  {
    var i :| 0 <= i < |users| && users[i].id == id;
    assert (users + [u])[i] == users[i];
  }

  /** Registration keeps the stores' invariant, given that the inserted id is fresh. */
  lemma RegisterPreservesValid(env: Env, s: State, email: Option<string>, password: Option<string>, newId: Id)
    requires Valid(env, s)
    requires newId != "" && !IsUser(s.users, newId)
    ensures Valid(env, Register(env, s, email, password, newId).1)
  {
    var (r, s') := Register(env, s, email, password, newId);
    if r.UserCreated? {
      var u := User(newId, email.value, env.sha1(password.value));
      assert s'.users == s.users + [u];
      forall id | IsUser(s.users, id) ensures IsUser(s'.users, id) {
        AppendKeepsUsers(s.users, u, id);
      }
      forall i, j | 0 <= i < j < |s'.users| ensures s'.users[i].id != s'.users[j].id {
        if j == |s.users| {
          assert s'.users[i] == s.users[i];
        }
      }
      forall id | id in s'.files ensures NodeOk(env, s', s'.files[id]) {
        assert NodeOk(env, s, s.files[id]);
      }
    }
  }

  datatype Registration = Registration(email: Option<string>, password: Option<string>, newId: Id)

  /** A series of registrations handled one after another. */
  function RegisterAll(env: Env, s: State, rs: seq<Registration>): State
    decreases |rs|
  {
    if rs == [] then s
    else RegisterAll(env, Register(env, s, rs[0].email, rs[0].password, rs[0].newId).1, rs[1..])
  }

  /** Across any series of registrations no two users share an email. */
  lemma {:induction false} RegistrationsKeepEmailsUnique(env: Env, s: State, rs: seq<Registration>)
    requires EmailsUnique(s.users)
    ensures EmailsUnique(RegisterAll(env, s, rs).users)
    decreases |rs|
  {
    if rs != [] {
      var s' := Register(env, s, rs[0].email, rs[0].password, rs[0].newId).1;
      RegisterKeepsEmailsUnique(env, s, rs[0].email, rs[0].password, rs[0].newId);
      RegistrationsKeepEmailsUnique(env, s', rs[1..]);
    }
  }

  /** Registering an email a second time is refused and changes nothing. */
  lemma RegisterTwiceRefused(env: Env, s: State, email: Option<string>, password: Option<string>,
                             id1: Id, id2: Id, password2: Option<string>)
    requires Register(env, s, email, password, id1).0.UserCreated?
    requires Truthy(password2)
    ensures var s1 := Register(env, s, email, password, id1).1;
      Register(env, s1, email, password2, id2) == (Fail(400, "Already exist"), s1)
  {
    var s1 := Register(env, s, email, password, id1).1;
    assert s1.users[|s.users|].email == email.value;
  }

  /** Whether the lookup step of a registration lets it through to the insert. */
  predicate Admits(s: State, email: Option<string>, password: Option<string>) {
    Truthy(email) && Truthy(password) && FindByEmail(s.users, email.value).None?
  }

  /** The insert step of a registration, on its own. */
  function Insert(env: Env, s: State, email: Option<string>, password: Option<string>, newId: Id): (s': State)
    requires Truthy(email) && Truthy(password)
    ensures Admits(s, email, password) ==> s' == Register(env, s, email, password, newId).1
    ensures |s'.users| == |s.users| + 1 && s'.users[|s.users|].email == email.value
  {
    s.(users := s.users + [User(newId, email.value, env.sha1(password.value))])
  }

  /** The lookup and the insert are two separate requests to the database, with no unique
      index behind them. Two registrations of one email whose lookups both run before either
      insert are both admitted, and the collection ends with two users of that email. */
  lemma InterleavedRegistrationsDuplicate(env: Env, s: State, email: Option<string>, password: Option<string>,
                                          id1: Id, id2: Id)
    requires Admits(s, email, password)
    ensures var s2 := Insert(env, Insert(env, s, email, password, id1), email, password, id2);
      !EmailsUnique(s2.users)
  {
    var s1 := Insert(env, s, email, password, id1);
    var s2 := Insert(env, s1, email, password, id2);
    assert s2.users[|s.users|] == s1.users[|s.users|];
    assert s2.users[|s.users|].email == s2.users[|s.users| + 1].email;
  }

  /** The handler on the live stores: it looks the email up, then inserts. */
  method PostNew(b: Backend, env: Env, email: Option<string>, password: Option<string>, newId: Id)
    returns (r: Reply)
    requires Valid(env, b.Snapshot())
    requires newId != "" && !IsUser(b.users, newId)
    modifies b
    ensures (r, b.Snapshot()) == Register(env, old(b.Snapshot()), email, password, newId)
    ensures Valid(env, b.Snapshot())
  {
    RegisterPreservesValid(env, b.Snapshot(), email, password, newId);
    if !Truthy(email) {
      return Fail(400, "Missing email");
    }
    if !Truthy(password) {
      return Fail(400, "Missing password");
    }
    var existing := FindByEmail(b.users, email.value);
    if existing.Some? {
      return Fail(400, "Already exist");
    }
    b.users := b.users + [User(newId, email.value, env.sha1(password.value))];
    r := UserCreated(newId, email.value);
  }
}

=== FILE: worker.dfy ===
/** The thumbnail job handler (worker.js). */
module Worker {
  import opened Common
  import opened Platform
  import opened Store

  /** The widths of the three thumbnails, in the order the handler lists them. */
  const Widths: seq<nat> := [500, 250, 100]

  datatype JobError =
    | MissingFileId
    | MissingUserId
      /** ObjectId rejects fileId or userId (the mongodb driver's own message). */
    | InvalidObjectId
    | FileNotFound
      /** image-thumbnail rejects at this width (its own message). */
    | ThumbnailFailed(width: nat)

  datatype JobOutcome = Completed | Failed(error: JobError)

  /** The text of the errors the handler throws itself. */
  function Message(e: JobError): (m: Option<string>)
    ensures m.Some? <==> e.MissingFileId? || e.MissingUserId? || e.FileNotFound?
  {
    match e
    case MissingFileId => Some("Missing fileId")
    case MissingUserId => Some("Missing userId")
    case FileNotFound => Some("File not found")
    case _ => None
  }

  /** The bytes image-thumbnail reads: the original blob, if the node has one on disk. */
  function Original(blobs: map<Path, Bytes>, localPath: Option<Path>): (r: Option<Bytes>)
    ensures r.Some? <==> localPath.Some? && localPath.value in blobs
    ensures r.Some? ==> r.value == blobs[localPath.value]
  {
    if localPath.Some? && localPath.value in blobs then Some(blobs[localPath.value]) else None
  }

  /** The thumbnail of the original at one width, None where image-thumbnail rejects. */
  function Thumb(env: Env, original: Option<Bytes>, width: nat): (r: Option<Bytes>)
    ensures original.None? ==> r.None?
    ensures original.Some? ==> r == env.thumbnail(original.value, width)
  {
    if original.None? then None else env.thumbnail(original.value, width)
  }

  /** The variant blobs a run over the widths ws writes: each width whose thumbnail succeeds,
      at the variant path of the original. */
  function Variants(env: Env, p: Path, original: Option<Bytes>, ws: seq<nat>): (v: map<Path, Bytes>)
    decreases |ws|
  {
    if ws == [] then map[]
    else
      var w := ws[|ws| - 1];
      var earlier := Variants(env, p, original, ws[..|ws| - 1]);
      match Thumb(env, original, w)
      case None => earlier
      case Some(t) => earlier[VariantPath(p, w) := t]
  }

  /** A run never writes over the original: every variant path is longer than p. */
  lemma {:induction false} VariantsSpareOriginal(env: Env, p: Path, original: Option<Bytes>, ws: seq<nat>)
    ensures p !in Variants(env, p, original, ws)
    decreases |ws|
  {
    if ws != [] {
      VariantsSpareOriginal(env, p, original, ws[..|ws| - 1]);
    }
  }

  /** A run writes at the variant path of every width whose thumbnail succeeds, and nowhere
      else. */
  lemma {:induction false} VariantsWritten(env: Env, p: Path, original: Option<Bytes>, ws: seq<nat>)
    ensures forall w :: w in ws && Thumb(env, original, w).Some? ==> VariantPath(p, w) in Variants(env, p, original, ws)
    ensures forall k :: k in Variants(env, p, original, ws) ==>
      exists w :: w in ws && Thumb(env, original, w).Some? && k == VariantPath(p, w)
    decreases |ws|
  {
    if ws != [] {
      var init := ws[..|ws| - 1];
      VariantsWritten(env, p, original, init);
      assert forall w :: w in ws <==> w in init || w == ws[|ws| - 1];
    }
  }

  /** The variant paths of the three widths are distinct. */
  lemma VariantPathsDistinct(p: Path)
    ensures VariantPath(p, 500) != VariantPath(p, 250)
    ensures VariantPath(p, 500) != VariantPath(p, 100)
    ensures VariantPath(p, 250) != VariantPath(p, 100)
  {
    assert Decimal(500) == "500" && Decimal(250) == "250" && Decimal(100) == "100";
    assert VariantPath(p, 500)[|p| + 1] == '5';
    assert VariantPath(p, 250)[|p| + 1] == '2';
    assert VariantPath(p, 100)[|p| + 1] == '1';
  }

  /** Each width whose thumbnail succeeds leaves that thumbnail at its variant path, whether or
      not the other widths succeed. */
  lemma VariantsHoldThumbnails(env: Env, p: Path, original: Option<Bytes>)
    ensures forall w :: w in Widths && Thumb(env, original, w).Some? ==>
      && VariantPath(p, w) in Variants(env, p, original, Widths)
      && Variants(env, p, original, Widths)[VariantPath(p, w)] == Thumb(env, original, w).value
  {
    VariantPathsDistinct(p);
    assert Widths[..2] == [500, 250];
    assert [500, 250][..1] == [500];
    assert [500][..0] == [];
  }

  /** The first width, in the order of ws, whose thumbnail fails. Every width is still
      attempted: one failure does not stop the others. */
  function FirstFailure(env: Env, original: Option<Bytes>, ws: seq<nat>): (f: Option<nat>)
    ensures f.Some? ==> f.value in ws && Thumb(env, original, f.value).None?
    ensures f.None? <==> forall w :: w in ws ==> Thumb(env, original, w).Some?
    decreases |ws|
  {
    if ws == [] then None
    else
      var earlier := FirstFailure(env, original, ws[..|ws| - 1]);
      assert forall w :: w in ws <==> w in ws[..|ws| - 1] || w == ws[|ws| - 1];
      if earlier.Some? then earlier
      else if Thumb(env, original, ws[|ws| - 1]).None? then Some(ws[|ws| - 1])
      else None
  }

  /** findOne({ _id: ObjectId(fileId), userId: ObjectId(userId) }): the job's file, only if the
      job's user owns it. The node's type is not looked at. */
  function OwnedFile(env: Env, files: map<Id, FileNode>, job: Job): (r: Result<FileNode, JobError>)
    requires Truthy(job.fileId) && Truthy(job.userId)
    ensures r.Ok? || r == Err(FileNotFound) || r == Err(InvalidObjectId)
    ensures r == Err(InvalidObjectId) <==>
      env.parseObjectId(job.fileId.value).None? || env.parseObjectId(job.userId.value).None?
    ensures r.Ok? <==>
      && env.parseObjectId(job.fileId.value).Some? && env.parseObjectId(job.userId.value).Some?
      && var fid := env.parseObjectId(job.fileId.value).value;
      && fid in files && files[fid].owner == env.parseObjectId(job.userId.value).value
    ensures r.Ok? ==> r.value == files[env.parseObjectId(job.fileId.value).value]
  {
    match (env.parseObjectId(job.fileId.value), env.parseObjectId(job.userId.value))
    case (Some(fid), Some(uid)) =>
      if fid in files && files[fid].owner == uid then Ok(files[fid]) else Err(FileNotFound)
    case _ => Err(InvalidObjectId)
  }

  /** The job handler as a transition of the stores: only the blob store changes, and only
      by the variants of the owned file's blob. */
  function Process(env: Env, job: Job, s: State): (res: (JobOutcome, State))
    ensures res.1 == s.(blobs := res.1.blobs)
    ensures res.0 == Failed(MissingFileId) <==> !Truthy(job.fileId)
    ensures res.0 == Failed(MissingUserId) <==> Truthy(job.fileId) && !Truthy(job.userId)
    ensures res.0 == Failed(FileNotFound) || res.0 == Failed(InvalidObjectId) <==>
      Truthy(job.fileId) && Truthy(job.userId) && OwnedFile(env, s.files, job).Err?
    ensures Truthy(job.fileId) && Truthy(job.userId) && OwnedFile(env, s.files, job).Err? ==>
      res.0 == Failed(OwnedFile(env, s.files, job).error)
    ensures res.0.Failed? && !res.0.error.ThumbnailFailed? ==> res.1 == s
    ensures res.0 == Completed || res.0.error.ThumbnailFailed? ==>
      && Truthy(job.fileId) && Truthy(job.userId) && OwnedFile(env, s.files, job).Ok?
      && var n := OwnedFile(env, s.files, job).value;
      && var original := Original(s.blobs, n.localPath);
      && res.1.blobs == s.blobs + Variants(env, n.localPath.GetOr("undefined"), original, Widths)
      && (res.0 == Completed <==> FirstFailure(env, original, Widths).None?)
  {
    if !Truthy(job.fileId) then (Failed(MissingFileId), s)
    else if !Truthy(job.userId) then (Failed(MissingUserId), s)
    else match OwnedFile(env, s.files, job)
      case Err(e) => (Failed(e), s)
      case Ok(n) =>
        var p := n.localPath.GetOr("undefined");
        var original := Original(s.blobs, n.localPath);
        var outcome := match FirstFailure(env, original, Widths)
          case None => Completed
          case Some(w) => Failed(ThumbnailFailed(w));
        (outcome, s.(blobs := s.blobs + Variants(env, p, original, Widths)))
  }

  /** The variants of a run over the three widths when every thumbnail succeeds. */
  lemma VariantsOfAllWidths(env: Env, p: Path, original: Option<Bytes>)
    requires forall w :: w in Widths ==> Thumb(env, original, w).Some?
    ensures Variants(env, p, original, Widths) ==
      map[][VariantPath(p, 500) := Thumb(env, original, 500).value]
           [VariantPath(p, 250) := Thumb(env, original, 250).value]
           [VariantPath(p, 100) := Thumb(env, original, 100).value]
  {
    assert Widths[..2] == [500, 250];
    assert [500, 250][..1] == [500];
    assert [500][..0] == [];
    assert 500 in Widths && 250 in Widths && 100 in Widths;
    var v1 := Variants(env, p, original, [500]);
    assert v1 == map[VariantPath(p, 500) := Thumb(env, original, 500).value];
    var v2 := Variants(env, p, original, [500, 250]);
    assert v2 == v1[VariantPath(p, 250) := Thumb(env, original, 250).value];
  }

  /** On success exactly three blobs are written, at p_500, p_250 and p_100, each the thumbnail
      of the original at that width, whatever the node's type. */
  lemma CompletedWritesThreeVariants(env: Env, job: Job, s: State)
    requires Process(env, job, s).0 == Completed
    ensures Truthy(job.fileId) && Truthy(job.userId) && OwnedFile(env, s.files, job).Ok?
    ensures var n := OwnedFile(env, s.files, job).value;
      var p := n.localPath.GetOr("undefined");
      var original := Original(s.blobs, n.localPath);
      && n.localPath == Some(p) && p in s.blobs && original == Some(s.blobs[p])
      && (forall w :: w in Widths ==> env.thumbnail(s.blobs[p], w).Some?)
      && Process(env, job, s).1.blobs == s.blobs[VariantPath(p, 500) := Thumb(env, original, 500).value]
                                               [VariantPath(p, 250) := Thumb(env, original, 250).value]
                                               [VariantPath(p, 100) := Thumb(env, original, 100).value]
  {
    var n := OwnedFile(env, s.files, job).value;
    var p := n.localPath.GetOr("undefined");
    var original := Original(s.blobs, n.localPath);
    assert FirstFailure(env, original, Widths).None?;
    assert 500 in Widths;
    assert original.Some?;
    var t5, t2, t1 := Thumb(env, original, 500).value, Thumb(env, original, 250).value, Thumb(env, original, 100).value;
    VariantsOfAllWidths(env, p, original);
    var v1 := map[][VariantPath(p, 500) := t5];
    var v2 := v1[VariantPath(p, 250) := t2];
    UnionUpdate(s.blobs, map[], VariantPath(p, 500), t5);
    UnionUpdate(s.blobs, v1, VariantPath(p, 250), t2);
    UnionUpdate(s.blobs, v2, VariantPath(p, 100), t1);
    assert s.blobs + map[] == s.blobs;
  }

  lemma UnionUpdate<K, V>(m: map<K, V>, v: map<K, V>, k: K, x: V)
    ensures m + v[k := x] == (m + v)[k := x]
  {
  }

  /** A job for a file its user does not own, or for no file, writes nothing. */
  lemma MismatchWritesNothing(env: Env, job: Job, s: State)
    requires Truthy(job.fileId) && Truthy(job.userId)
    requires env.parseObjectId(job.fileId.value).Some? && env.parseObjectId(job.userId.value).Some?
    requires var fid := env.parseObjectId(job.fileId.value).value;
      fid !in s.files || s.files[fid].owner != env.parseObjectId(job.userId.value).value
    ensures Process(env, job, s) == (Failed(FileNotFound), s)
    ensures Message(Process(env, job, s).0.error) == Some("File not found")
  {
  }

  /** A job missing either field fails with the handler's own message, the file id first. */
  lemma MissingFieldMessages(env: Env, job: Job, s: State)
    ensures !Truthy(job.fileId) ==> Message(Process(env, job, s).0.error) == Some("Missing fileId")
    ensures Truthy(job.fileId) && !Truthy(job.userId) ==>
      Message(Process(env, job, s).0.error) == Some("Missing userId")
    ensures !Truthy(job.fileId) || !Truthy(job.userId) ==> Process(env, job, s).1 == s
  {
  }

  /** The node's type is never looked at: a job naming a plain file its user owns makes
      thumbnails of it like of an image. */
  lemma TypeNotChecked(env: Env, job: Job, s: State)
    requires Truthy(job.fileId) && Truthy(job.userId)
    requires OwnedFile(env, s.files, job).Ok?
    requires var n := OwnedFile(env, s.files, job).value;
      && n.kind == File && n.localPath.Some? && n.localPath.value in s.blobs
      && forall w :: w in Widths ==> env.thumbnail(s.blobs[n.localPath.value], w).Some?
    ensures Process(env, job, s).0 == Completed
  {
    var n := OwnedFile(env, s.files, job).value;
    var original := Original(s.blobs, n.localPath);
    forall w | w in Widths ensures Thumb(env, original, w).Some? {
    }
  }

  /** Running the same job again finds the same original and rewrites the same variants:
      same outcome, same stores. */
  lemma ProcessIdempotent(env: Env, job: Job, s: State)
    ensures var (out, s1) := Process(env, job, s);
      Process(env, job, s1) == (out, s1)
  {
    var (out, s1) := Process(env, job, s);
    if out == Completed || out.error.ThumbnailFailed? {
      var n := OwnedFile(env, s.files, job).value;
      var p := n.localPath.GetOr("undefined");
      var original := Original(s.blobs, n.localPath);
      var v := Variants(env, p, original, Widths);
      VariantsSpareOriginal(env, p, original, Widths);
      assert Original(s1.blobs, n.localPath) == original;
      assert s1.blobs + v == s1.blobs;
    }
  }

  /** The worker keeps the stores' invariant: it only adds blobs. */
  lemma ProcessPreservesValid(env: Env, job: Job, s: State)
    requires Valid(env, s)
    ensures Valid(env, Process(env, job, s).1)
  {
    var s' := Process(env, job, s).1;
    assert s.blobs.Keys <= s'.blobs.Keys;
    forall id | id in s'.files ensures NodeOk(env, s', s'.files[id]) {
      assert NodeOk(env, s, s.files[id]);
    }
  }

  /** The job handler on the live stores: the three thumbnails are made and written one
      after another. */
  method RunJob(b: Backend, env: Env, job: Job) returns (out: JobOutcome)
    requires Valid(env, b.Snapshot())
    modifies b
    ensures (out, b.Snapshot()) == Process(env, job, old(b.Snapshot()))
    ensures Valid(env, b.Snapshot())
  {
    ProcessPreservesValid(env, job, b.Snapshot());
    if !Truthy(job.fileId) {
      return Failed(MissingFileId);
    }
    if !Truthy(job.userId) {
      return Failed(MissingUserId);
    }
    var found := OwnedFile(env, b.files, job);
    if found.Err? {
      return Failed(found.error);
    }
    var n := found.value;
    var p := n.localPath.GetOr("undefined");
    var original := Original(b.blobs, n.localPath);
    var failed := WriteVariants(b, env, p, original);
    out := if failed.None? then Completed else Failed(ThumbnailFailed(failed.value));
    assert Process(env, job, old(b.Snapshot())) == (out, old(b.Snapshot()).(blobs := b.blobs));
  }

  /** The three thumbnails of one job, made and written one after another; the first width
      whose thumbnail fails is reported, and the others are still written. */
  method WriteVariants(b: Backend, env: Env, p: Path, original: Option<Bytes>) returns (failed: Option<nat>)
    modifies b
    ensures b.Snapshot() == old(b.Snapshot()).(blobs := old(b.blobs) + Variants(env, p, original, Widths))
    ensures failed == FirstFailure(env, original, Widths)
  {
    ghost var start := b.blobs;
    failed := None;
    var i := 0;
    while i < |Widths|
      invariant 0 <= i <= |Widths|
      invariant b.Snapshot() == old(b.Snapshot()).(blobs := b.blobs)
      invariant b.blobs == start + Variants(env, p, original, Widths[..i])
      invariant failed == FirstFailure(env, original, Widths[..i])
    {
      var width := Widths[i];
      assert Widths[..i + 1][..i] == Widths[..i];
      var thumb := Thumb(env, original, width);
      if thumb.Some? {
        UnionUpdate(start, Variants(env, p, original, Widths[..i]), VariantPath(p, width), thumb.value);
        b.blobs := b.blobs[VariantPath(p, width) := thumb.value];
      } else if failed.None? {
        failed := Some(width);
      }
      i := i + 1;
    }
    assert Widths[..i] == Widths;
  }
}
